=== FILE: README.md ===
# LAN Share AI: the file list, its handlers and its cards, in Dafny

This project models the logic of a browser demo of a local-network file share.
The page keeps a list of files in memory. It lets the user search the list,
upload or drop files, rename and delete them, and ask an external AI service
for a short description and tags of a file. A card shows each file with an
icon chosen from its type and an "AI" section. That section holds either the
annotation or a button that starts the analysis.

Modules:

- `Text`: the JavaScript string operations the handlers use. These are `trim`
  (with the ECMAScript white-space and line-terminator code points), `toLowerCase`
  on ASCII letters, `includes` and `startsWith`.
- `Lists`: an order-preserving filter (`Where`) and the subsequence relation.
- `Files`: the file record `FileNode`, the analysis result, an incoming file,
  and the JavaScript truthiness of the optional fields. A description counts
  only when it is defined and non-empty. `isAnalyzing` counts only when it is
  `true`.
- `Store`: the handlers of `App.tsx`, each a pure function from the previous
  list to the next one. These are search, upload/drop, delete, rename, and the
  two halves of an analysis.
- `Card`: `getFileIcon` and what the list row and the grid card show, from
  `components/FileCard.tsx`.
- `Session`: a session as a trace of handler calls. The asynchronous analysis
  is a `Start` step and a later `Complete` step with any other steps between
  them. The module also holds lemmas that connect the list to the cards.

Two behaviours of the code worth stating:

- The analysis service does not check the shape of the answer. It only parses
  the text as JSON. The service never fails outward, because failures become a
  fixed fallback result. So when the parsed answer is an object, the completion
  step always writes a result; it never leaves the file unchanged.
- The completion step does not look the file up again. It maps over the list
  as it is at that moment and rewrites every entry with the identifier. A
  deleted file is therefore never brought back (`Session.NoResurrection`).

## Model

| member | source | states |
|---|---|---|
| `Text.Trim` | App.tsx:103-105 | `trim` leaves an infix of the input with only white space around it. The infix starts and ends with non-white-space. It is empty exactly when the input is all white space. |
| `Text.TrimIdempotent` | App.tsx:103-105 | Trimming an already trimmed name changes nothing. |
| `Text.Includes` | App.tsx:63-65 | `includes` holds exactly when the substring occurs at some position of the string. |
| `Text.Lower` | App.tsx:63-65 | `toLowerCase` keeps the length and maps each character on its own. A-Z go to the matching a-z, every other character is unchanged, and no upper-case ASCII letter remains. |
| `Text.LowerIdempotent` | App.tsx:63-65 | Lower-casing an already lower-cased query or name changes nothing. |
| `Text.StartsWith` | components/FileCard.tsx:28-30 | `startsWith` holds exactly when the string is at least as long as the prefix and agrees with it position by position. |
| `Lists.Where` | App.tsx:89 | Every element `filter` returns is accepted by the predicate, and the result is no longer than the input. The same filter serves the search at lines 62-66. |
| `Lists.WhereMembers` | App.tsx:89 | An element is in the result of `filter` exactly when it is in the input and accepted. The same filter serves the search at lines 62-66. |
| `Lists.WhereCounts` | App.tsx:89 | `filter` keeps each accepted element as often as it occurs in the input, and drops every other element. The same filter serves the search at lines 62-66. |
| `Lists.WhereIsSubsequence` | App.tsx:89 | The result of `filter` is a subsequence of the input, so the original order is kept. The same filter serves the search at lines 62-66. |
| `Store.Search` | App.tsx:62-66 | The search shows exactly the files whose lower-cased name, description (if any) or tags (if any) contain the lower-cased query. It keeps each as often as in the list, in list order. |
| `Store.InitialFiles` | App.tsx:18-49 | The page starts with four files, with ids "1" to "4". Only the first has a description and tags. None is analyzing, and each was uploaded before the current time. |
| `Store.SearchEmptyQuery` | App.tsx:62-63 | An empty query shows the whole list, because every name includes the empty string. |
| `Store.NewNode` | App.tsx:72-78 | An uploaded file gets the given id, name, size and date. It gets no description, no tags and no analyzing flag. An empty type becomes `application/octet-stream`; any other type is kept. |
| `Store.AddFiles` | App.tsx:72-79 | Upload puts the new entries first, in input order, followed by the unchanged previous list. The drop handler at lines 148-155 builds the list the same way. |
| `Store.SearchAfterUpload` | App.tsx:79 | After an upload, the search shows the matching new entries followed by the previous search result. |
| `Store.DeleteFile` | App.tsx:89 | Delete removes every entry with the id and nothing else. The other entries keep their multiplicity and their order. |
| `Store.DeleteAbsent` | App.tsx:89 | Deleting an id that is not in the list leaves the list unchanged. |
| `Store.ConfirmRename` | App.tsx:102-106 | With a truthy editing id and a non-blank name, only the `name` of the entries with that id changes, to the trimmed name. Otherwise the list is unchanged. The ids keep their positions in both cases. |
| `Store.RenamedNamesAreTrimmed` | App.tsx:103-105 | A renamed entry's name is non-empty and has no white space at either end. |
| `Store.RenameTrimInsensitive` | App.tsx:103-105 | Trimming the typed name first changes nothing. |
| `Store.RenameIdempotent` | App.tsx:102-106 | Confirming the same rename twice gives the same list as confirming it once. |
| `Store.FindIndex` | App.tsx:113 | `find` gives the position of the first entry with the id. It gives nothing exactly when no entry has the id. |
| `Store.BeginAnalysis` | App.tsx:113-117 | If no entry has the id, nothing changes and no file is sent for analysis. Otherwise the entries with the id get `isAnalyzing = true` and nothing else about them changes. All other entries, the length and the order are unchanged. The file sent for analysis is the first entry with the id, the one `find` returns. |
| `Store.FinishAnalysis` | App.tsx:123-130 | Completion keeps the list's ids, positions and length. Entries with the id keep their id, name, size, type and date. Their flag is cleared, and their description and tags are replaced (not merged) by the result's. All other entries are unchanged. |
| `Card.FileIcon` | components/FileCard.tsx:27-34 | `getFileIcon`: the image icon exactly when the type starts with `image/`. Film, music, archive and code each only when their own test succeeds. The document icon exactly when none of the eight tests succeeds. |
| `Card.FirstFit` | components/FileCard.tsx:27-34 | As a reference, the icon is chosen from a rule table. The result is the icon of the first rule whose pattern fits, or the document icon when none fits. |
| `Card.FileIconFollowsRules` | components/FileCard.tsx:27-34 | `getFileIcon`'s chain of tests gives the same icon as the rule table read in order. |
| `Card.MediaPrefixWins` | components/FileCard.tsx:28-30 | A type starting with `image/`, `video/` or `audio/` gets the image, film or music icon, whatever else it contains. |
| `Card.ArchiveBeforeCode` | components/FileCard.tsx:31-32 | Archive holds exactly when there is no media prefix and the type contains `zip` or `compressed`. A type classed as code contains neither archive word. |
| `Card.DocumentWhenNoRuleFits` | components/FileCard.tsx:27-34 | The generic document icon is chosen exactly when none of the eight tests succeeds. |
| `Card.ZipIsArchive` | components/FileCard.tsx:31 | `application/zip` gets the archive icon. |
| `Card.CompressedCodeIsArchive` | components/FileCard.tsx:31-32 | A type that contains both `javascript` and `compressed` gets the archive icon. |
| `Card.ListView` | components/FileCard.tsx:71-103 | The row's icon is the one the rule table selects. The description line is shown exactly when the description is neither undefined nor empty. The analyze button appears exactly when the description is undefined or empty and `isAnalyzing` is undefined or false. The indicator appears exactly when `isAnalyzing` is `true`. |
| `Card.GridView` | components/FileCard.tsx:153-238 | The card's icon is the one the rule table selects. The annotation is shown exactly when the description is neither undefined nor empty, with the tag list exactly as the file has it. Otherwise the button is shown, disabled and spinning exactly when `isAnalyzing` is `true`. |
| `Card.LayoutsAgreeOnAnalyze` | components/FileCard.tsx:91-220 | The list button (lines 91-97) is offered exactly when the grid button (lines 216-220) is shown enabled. The list never shows its button together with its indicator (line 99). When the list shows the indicator, a grid button is disabled. |
| `Card.EmptyDescriptionIsAbsent` | components/FileCard.tsx:91 | When no analysis is running, an empty description counts as none: the list shows no description line, and both layouts offer the analysis again. |
| `Session.RunInventsNoIds` | App.tsx:87-131 | Delete, rename and both analysis steps never add an id to the list. |
| `Session.RunKeepsId` | App.tsx:69-131 | Only a delete of an id removes that id from the list. |
| `Session.RunKeepsAbsent` | App.tsx:69-131 | An id missing from the list stays missing through any steps that upload no file with that id. |
| `Session.NoResurrection` | App.tsx:123-130 | Take the trace Start(id), any steps, Delete(id), any steps that upload no file with that id, then Complete(id, r). Afterwards no entry has that id. Uploads of other files, before or after the delete, do not matter. |
| `Session.StartThenComplete` | App.tsx:112-131 | A trace that starts an analysis, takes any steps, then completes it equals the completion applied to the list those steps leave after the start. The answer is written into the current list, not the one the request saw. |
| `Session.FinishedEntriesCarryResult` | App.tsx:123-130 | Every entry carrying the identifier after completion holds exactly the returned description and tags and is no longer analyzing. |
| `Session.AnalysisCompletes` | App.tsx:112-131 | If the file is not deleted while its analysis runs, it is in the list at the end. Every entry with its id then carries exactly the result and is no longer analyzing. |
| `Session.StartedCardsAreBusy` | App.tsx:117 | Right after the start, every card of the file shows the indicator and offers no analyze button. In the grid, a shown button is disabled. |
| `Session.CompletedCardsShowResult` | App.tsx:123-130 | After completion, no card of the file shows the indicator. With a non-empty returned description, the list hides the analyze button and the grid shows that description with the returned tags. With an empty one, both layouts offer the analysis again. |
| `Session.UploadedCardsOfferAnalysis` | App.tsx:72-79 | A freshly uploaded file offers the analysis in both layouts. |
| `Session.FallbackHidesAnalyzeButton` | services/geminiService.ts:8-56 | Both fixed results of the service, the missing-key answer (lines 8-13) and the failure answer (lines 51-56), carry a description. So a card completed with either hides the analyze button and shows the annotation. A failed analysis cannot be retried from the card. |
| `Session.SampleAnalysis` | App.tsx:28-34 | On the initial list, analysing file "2" with a successful result leaves four files. File "2" then carries that description, is no longer analyzing, and shows the annotation with its three tags. |
| `Session.SampleDeleteDuringAnalysis` | App.tsx:19-27 | On the initial list, the trace Start("1"), Delete("1"), Complete("1", r) leaves no file "1". |

## Left out

- Rendering: JSX, React hooks, the outside-click menu listener, the menu, modal and drag-overlay flags, the view-mode toggle and resetting the file input. They change no file data.
- `handleRenameClick` (App.tsx:93-100) only opens the dialog with the current name. The model takes the editing id and the typed name as inputs of `ConfirmRename`.
- The delete confirmation `window.confirm` (App.tsx:88) is an input already decided. `Delete` in a trace is a confirmed delete. The download `alert` (App.tsx:133-135) changes nothing.
- Identifiers from `Math.random` and timestamps from `Date.now` (App.tsx:73, 77, 149, 153) are supplied by the caller as fields of `Incoming`. Whether ids are unique is not modelled; entries that share an id are all updated together, as in the code.
- `formatSize`, `formatDate` and the `KB` size label sent to the service (components/FileCard.tsx:36-51, App.tsx:120) use floating point and locale formatting. The model records which file was sent, not the label.
- An answer text of `null` parses without an exception (services/geminiService.ts:50), and the service then returns `null`. If an entry still carries the id, reading `result.description` at App.tsx:127 (inside the branch of line 124) throws inside the React state updater, and what the page does after that exception is outside the model. If no entry carries the id any more, nothing is read and the list stays as it is. `AnalysisResult` cannot express a `null` answer, so this path is not modelled.
- The analysis service (services/geminiService.ts) is a call into an external SDK followed by `JSON.parse`. Its answer is an opaque `AnalysisResult` given to `Complete`. Its two fixed fallbacks appear only as sample results. A parsed answer missing `description` or `tags` cannot be expressed, because `AnalysisResult` always has both fields.
- Real asynchrony: the await is a `Start` step and a later `Complete` step with arbitrary steps between them. `handleAnalyze` looks the file up in the list of the render that created it; the model uses the current list.
- Text.Lower: maps only the ASCII letters A-Z to lower case, not full Unicode case mapping, because Dafny has no Unicode tables. Strings are sequences of Unicode scalar values.

=== FILE: card.dfy ===
/**
 What a file card shows: the icon chosen from the file's type, and the parts
 of the AI section that depend on the description and the analyzing mark,
 in the list layout and in the grid layout.
 */
module Card {
  import opened Files
  import opened Text

  /** The six icons a card can carry. */
  datatype Category = Image | Film | Music | Archive | Code | Document

  /** The icon for a type string, by the first test that succeeds: the three
      media prefixes, then the archive words, then the code words. Each icon
      is chosen only when its own test succeeds and no earlier one does. */
  function FileIcon(mimeType: string): (c: Category)
    ensures c == Image <==> StartsWith(mimeType, "image/")
    ensures c == Film ==> StartsWith(mimeType, "video/")
    ensures c == Music ==> StartsWith(mimeType, "audio/")
    ensures c == Archive ==> Includes(mimeType, "zip") || Includes(mimeType, "compressed")
    ensures c == Code ==> Includes(mimeType, "javascript") || Includes(mimeType, "html") || Includes(mimeType, "css")
    ensures c == Document <==>
      && !StartsWith(mimeType, "image/") && !StartsWith(mimeType, "video/") && !StartsWith(mimeType, "audio/")
      && !Includes(mimeType, "zip") && !Includes(mimeType, "compressed")
      && !Includes(mimeType, "javascript") && !Includes(mimeType, "html") && !Includes(mimeType, "css")
  {
    if StartsWith(mimeType, "image/") then Image
    else if StartsWith(mimeType, "video/") then Film
    else if StartsWith(mimeType, "audio/") then Music
    else if Includes(mimeType, "zip") || Includes(mimeType, "compressed") then Archive
    else if Includes(mimeType, "javascript") || Includes(mimeType, "html") || Includes(mimeType, "css") then Code
    else Document
  }

  // ------------------------------------------------------- the rule table

  /** A test on a type string: a required prefix, or a required infix. */
  datatype Pattern = Prefix(text: string) | Infix(text: string)

  predicate Fits(p: Pattern, mimeType: string) {
    match p
    case Prefix(t) => t <= mimeType
    case Infix(t) => Includes(mimeType, t)
  }

  /** The classification as data: the tests in priority order, each with the
      icon it selects. */
  const IconRules: seq<(Pattern, Category)> := [
    (Prefix("image/"), Image),
    (Prefix("video/"), Film),
    (Prefix("audio/"), Music),
    (Infix("zip"), Archive),
    (Infix("compressed"), Archive),
    (Infix("javascript"), Code),
    (Infix("html"), Code),
    (Infix("css"), Code)
  ]

  /** Rule `j` is the first rule from position `k` on whose pattern fits. */
  predicate FirstFitsAt(rules: seq<(Pattern, Category)>, mimeType: string, k: nat, j: int) {
    && k <= j < |rules|
    && Fits(rules[j].0, mimeType)
    && forall i :: k <= i < j ==> !Fits(rules[i].0, mimeType)
  }

  /** The icon of the first rule from position `k` on whose pattern fits,
      or the generic document icon when none does. */
  function FirstFit(rules: seq<(Pattern, Category)>, mimeType: string, k: nat): (c: Category)
    ensures || (exists j :: FirstFitsAt(rules, mimeType, k, j) && rules[j].1 == c)
            || (c == Document && forall j :: k <= j < |rules| ==> !Fits(rules[j].0, mimeType))
    decreases |rules| - k
  {
    if k >= |rules| then Document
    else if Fits(rules[k].0, mimeType) then
      assert FirstFitsAt(rules, mimeType, k, k);
      rules[k].1
    else
      var c := FirstFit(rules, mimeType, k + 1);
      assert forall j :: FirstFitsAt(rules, mimeType, k + 1, j) ==> FirstFitsAt(rules, mimeType, k, j);
      c
  }

  /** The chain of tests in the card is the rule table read top to bottom. */
  lemma FileIconFollowsRules(mimeType: string)
    ensures FileIcon(mimeType) == FirstFit(IconRules, mimeType, 0)
  {
    // Unfolding the table one rule at a time keeps the proof small.
    var t := mimeType;
    assert FirstFit(IconRules, t, 8) == Document;
    assert FirstFit(IconRules, t, 7) == if Includes(t, "css") then Code else Document;
    assert FirstFit(IconRules, t, 6) == if Includes(t, "html") then Code else FirstFit(IconRules, t, 7);
    assert FirstFit(IconRules, t, 5) == if Includes(t, "javascript") then Code else FirstFit(IconRules, t, 6);
    assert FirstFit(IconRules, t, 4) == if Includes(t, "compressed") then Archive else FirstFit(IconRules, t, 5);
    assert FirstFit(IconRules, t, 3) == if Includes(t, "zip") then Archive else FirstFit(IconRules, t, 4);
    assert FirstFit(IconRules, t, 2) == if "audio/" <= t then Music else FirstFit(IconRules, t, 3);
    assert FirstFit(IconRules, t, 1) == if "video/" <= t then Film else FirstFit(IconRules, t, 2);
    assert FirstFit(IconRules, t, 0) == if "image/" <= t then Image else FirstFit(IconRules, t, 1);
  }

  /** A media prefix decides the icon before any infix test. */
  lemma MediaPrefixWins(mimeType: string)
    ensures StartsWith(mimeType, "image/") ==> FileIcon(mimeType) == Image
    ensures StartsWith(mimeType, "video/") ==> FileIcon(mimeType) == Film
    ensures StartsWith(mimeType, "audio/") ==> FileIcon(mimeType) == Music
  {
    if StartsWith(mimeType, "video/") || StartsWith(mimeType, "audio/") {
      assert mimeType[0] != 'i';
    }
    if StartsWith(mimeType, "audio/") {
      assert mimeType[0] != 'v';
    }
  }

  /** Without a media prefix, an archive word wins over a code word. */
  lemma ArchiveBeforeCode(mimeType: string)
    ensures FileIcon(mimeType) == Archive <==>
      && !StartsWith(mimeType, "image/") && !StartsWith(mimeType, "video/") && !StartsWith(mimeType, "audio/")
      && (Includes(mimeType, "zip") || Includes(mimeType, "compressed"))
    ensures FileIcon(mimeType) == Code ==>
      !Includes(mimeType, "zip") && !Includes(mimeType, "compressed")
  {
  }

  /** The generic document icon is left for exactly the types no rule fits. */
  lemma DocumentWhenNoRuleFits(mimeType: string)
    ensures FileIcon(mimeType) == Document <==>
      forall j :: 0 <= j < |IconRules| ==> !Fits(IconRules[j].0, mimeType)
  {
    FileIconFollowsRules(mimeType);
    if FileIcon(mimeType) != Document {
      var j :| FirstFitsAt(IconRules, mimeType, 0, j) && IconRules[j].1 == FileIcon(mimeType);
    }
  }

  /** No `application/` type starts with a media prefix. */
  lemma ApplicationIsNotMedia(t: string)
    requires |t| >= 2 && t[0] == 'a' && t[1] == 'p'
    ensures !StartsWith(t, "image/") && !StartsWith(t, "video/") && !StartsWith(t, "audio/")
  {
    assert "audio/"[1] == 'u';
  }

  /** A zip archive gets the archive icon although it is an `application/` type. */
  lemma ZipIsArchive()
    ensures FileIcon("application/zip") == Archive
  {
    var t := "application/zip";
    ApplicationIsNotMedia(t);
    assert OccursAt(t, "zip", 12);
  }

  /** A type naming both a compressed archive and code gets the archive icon. */
  lemma CompressedCodeIsArchive()
    ensures FileIcon("application/x-javascript-compressed") == Archive
  {
    var t := "application/x-javascript-compressed";
    ApplicationIsNotMedia(t);
    assert OccursAt(t, "compressed", 25);
  }

  // ------------------------------------------------------- list layout

  /** The parts of a list row that depend on the file: the icon, the
      description line, the analyze button and the analyzing indicator. */
  datatype ListRow = ListRow(icon: Category, descriptionLine: Option<string>, analyzeButton: bool, analyzingIndicator: bool)

  /** The row, stated over the raw optional fields as JavaScript tests them:
      an undefined or empty description is falsy, and an undefined or false
      `isAnalyzing` is falsy. The icon is the one the rule table selects. */
  function ListView(f: FileNode): (v: ListRow)
    ensures v.icon == FirstFit(IconRules, f.mimeType, 0)
    ensures v.descriptionLine == if f.description == Some("") then None else f.description
    ensures v.analyzeButton <==> f.description in {None, Some("")} && (f.isAnalyzing == None || f.isAnalyzing == Some(false))
    ensures v.analyzingIndicator <==> f.isAnalyzing == Some(true)
  {
    FileIconFollowsRules(f.mimeType);
    assert HasDescription(f) <==> f.description !in {None, Some("")};
    NotAnalyzingCases(f);
    ListRow(
      FileIcon(f.mimeType),
      if HasDescription(f) then f.description else None,
      !HasDescription(f) && !IsAnalyzing(f),
      IsAnalyzing(f))
  }

  // ------------------------------------------------------- grid layout

  /** The AI section of a grid card: the annotation (with the tags when the
      file has a tag list), or the analyze button, disabled and showing the
      spinner while an analysis runs. */
  datatype AiSection = Annotation(text: string, tags: Option<seq<string>>) | AnalyzeButton(busy: bool)

  datatype GridCard = GridCard(icon: Category, ai: AiSection)

  /** The card, stated over the raw optional fields as JavaScript tests them. */
  function GridView(f: FileNode): (v: GridCard)
    ensures v.icon == FirstFit(IconRules, f.mimeType, 0)
    ensures v.ai.Annotation? <==> f.description !in {None, Some("")}
    ensures v.ai.Annotation? ==> f.description == Some(v.ai.text) && v.ai.tags == f.tags
    ensures v.ai.AnalyzeButton? ==> (v.ai.busy <==> f.isAnalyzing == Some(true))
  {
    FileIconFollowsRules(f.mimeType);
    assert HasDescription(f) <==> f.description !in {None, Some("")};
    GridCard(
      FileIcon(f.mimeType),
      if HasDescription(f) then Annotation(f.description.value, f.tags) else AnalyzeButton(IsAnalyzing(f)))
  }

  /** The two layouts agree on when an analysis can be started: the list
      row offers the button exactly when the grid card shows it enabled.
      They differ while an annotated file is analyzing: only the list row
      shows the indicator. */
  lemma LayoutsAgreeOnAnalyze(f: FileNode)
    ensures ListView(f).analyzeButton <==> GridView(f).ai == AnalyzeButton(false)
    ensures !(ListView(f).analyzeButton && ListView(f).analyzingIndicator)
    ensures ListView(f).analyzingIndicator && GridView(f).ai.AnalyzeButton? ==> GridView(f).ai.busy
  {
  }

  /** An empty description counts as none: the card offers analysis again. */
  lemma EmptyDescriptionIsAbsent(f: FileNode)
    requires f.description == Some("") && !IsAnalyzing(f)
    ensures ListView(f).analyzeButton && ListView(f).descriptionLine == None
    ensures GridView(f).ai == AnalyzeButton(false)
  {
  }
}

=== FILE: files.dfy ===
/**
 The records of the file share: a file in the list, the annotation the
 analysis service returns, and a file as it arrives from the upload input or
 a drop, together with JavaScript's truthiness of the optional fields.
 */
module Files {

  /** An optional field: `undefined` is `None`. */
  datatype Option<+T> = None | Some(value: T)

  /** The annotation returned by the analysis service. */
  datatype AnalysisResult = AnalysisResult(description: string, tags: seq<string>)

  /** One entry of the file list. `size` is a byte count and `uploadDate` a
      millisecond timestamp; the last three fields may be left undefined. */
  datatype FileNode = FileNode(
    id: string,
    name: string,
    size: nat,
    mimeType: string,
    uploadDate: int,
    description: Option<string>,
    tags: Option<seq<string>>,
    isAnalyzing: Option<bool>)

  /** A file chosen in the upload input or dropped on the page. The list
      gives each a random identifier and the current time; both are supplied
      here by the caller. */
  datatype Incoming = Incoming(id: string, name: string, size: nat, mimeType: string, uploadDate: int)

  /** `file.description` as a condition: an undefined or empty description is falsy. */
  predicate HasDescription(f: FileNode) {
    f.description.Some? && f.description.value != ""
  }

  /** `file.isAnalyzing` as a condition: only `true` is truthy. */
  predicate IsAnalyzing(f: FileNode) {
    f.isAnalyzing == Some(true)
  }

  /** The falsy values of `file.isAnalyzing` are `undefined` and `false`. */
  lemma NotAnalyzingCases(f: FileNode)
    ensures !IsAnalyzing(f) <==> f.isAnalyzing == None || f.isAnalyzing == Some(false)
  {
    match f.isAnalyzing
    case None =>
    case Some(b) => if !b { assert f.isAnalyzing == Some(false); }
  }

  /** The fields that describe the file itself, as opposed to its annotation. */
  predicate SameFile(a: FileNode, b: FileNode) {
    && a.id == b.id
    && a.name == b.name
    && a.size == b.size
    && a.mimeType == b.mimeType
    && a.uploadDate == b.uploadDate
  }

  /** The identifiers of a list, position by position. */
  function IdsOf(files: seq<FileNode>): (ids: seq<string>)
    ensures |ids| == |files|
    ensures forall i :: 0 <= i < |files| ==> ids[i] == files[i].id
  {
    seq(|files|, i requires 0 <= i < |files| => files[i].id)
  }
}

=== FILE: lists.dfy ===
/**
 Order-preserving selection from a sequence, the `Array.prototype.filter`
 that the search box and the delete handler both use.
 */
module Lists {

  /** `a` can be obtained from `b` by dropping elements, keeping the order of the rest. */
  predicate IsSubsequence<T(==)>(a: seq<T>, b: seq<T>)
    decreases |b|
  {
    || a == []
    || (b != [] && ((a[0] == b[0] && IsSubsequence(a[1..], b[1..])) || IsSubsequence(a, b[1..])))
  }

  /** The elements of `s` that `keep` accepts, in their original order. */
  function Where<T(!new)>(s: seq<T>, keep: T -> bool): (r: seq<T>)
    ensures |r| <= |s|
    ensures forall i :: 0 <= i < |r| ==> keep(r[i])
    decreases |s|
  {
    if s == [] then []
    else if keep(s[0]) then [s[0]] + Where(s[1..], keep)
    else Where(s[1..], keep)
  }

  /** `Where` keeps exactly the accepted elements. */
  lemma {:induction false} WhereMembers<T(!new)>(s: seq<T>, keep: T -> bool)
    ensures forall x :: x in Where(s, keep) <==> x in s && keep(x)
    decreases |s|
  {
    if s != [] {
      WhereMembers(s[1..], keep);
      assert forall x :: x in s <==> x == s[0] || x in s[1..];
    }
  }

  /** `Where` keeps every accepted element as often as it occurs. */
  lemma {:induction false} WhereCounts<T(!new)>(s: seq<T>, keep: T -> bool)
    ensures forall x :: multiset(Where(s, keep))[x] == if keep(x) then multiset(s)[x] else 0
    decreases |s|
  {
    if s != [] {
      WhereCounts(s[1..], keep);
      assert s == [s[0]] + s[1..];
      assert multiset(s) == multiset{s[0]} + multiset(s[1..]);
    }
  }

  lemma {:induction false} WhereIsSubsequence<T(!new)>(s: seq<T>, keep: T -> bool)
    ensures IsSubsequence(Where(s, keep), s)
    decreases |s|
  {
    if s != [] {
      var rest := Where(s[1..], keep);
      WhereIsSubsequence(s[1..], keep);
      if keep(s[0]) {
        assert ([s[0]] + rest)[1..] == rest;
      } else {
        assert Where(s, keep) == rest;
      }
    }
  }

  /** A filter that accepts every element is the identity. */
  lemma {:induction false} WhereAll<T(!new)>(s: seq<T>, keep: T -> bool)
    requires forall x :: x in s ==> keep(x)
    ensures Where(s, keep) == s
    decreases |s|
  {
    if s != [] {
      assert forall x :: x in s[1..] ==> x in s;
      WhereAll(s[1..], keep);
      assert s == [s[0]] + s[1..];
    }
  }

  /** One step of `Where`: the head, if kept, then the filtered tail. */
  lemma WhereCons<T(!new)>(s: seq<T>, keep: T -> bool)
    requires s != []
    ensures Where(s, keep) == (if keep(s[0]) then [s[0]] else []) + Where(s[1..], keep)
  {
  }

  /** One step of `Where` on a concatenation whose first part is not empty. */
  lemma WhereConsAppend<T(!new)>(a: seq<T>, b: seq<T>, keep: T -> bool)
    requires a != []
    ensures Where(a + b, keep) == (if keep(a[0]) then [a[0]] else []) + Where(a[1..] + b, keep)
  {
    assert (a + b)[0] == a[0];
    assert (a + b)[1..] == a[1..] + b;
    WhereCons(a + b, keep);
  }

  /** Filtering a concatenation filters each part. */
  lemma {:induction false} WhereAppend<T(!new)>(a: seq<T>, b: seq<T>, keep: T -> bool)
    ensures Where(a + b, keep) == Where(a, keep) + Where(b, keep)
    decreases |a|
  {
    if a == [] {
      assert a + b == b;
    } else {
      WhereConsAppend(a, b, keep);
      WhereCons(a, keep);
      WhereAppend(a[1..], b, keep);
      var head: seq<T> := if keep(a[0]) then [a[0]] else [];
      assert head + (Where(a[1..], keep) + Where(b, keep)) == (head + Where(a[1..], keep)) + Where(b, keep);
    }
  }
}

=== FILE: session.dfy ===
/**
 A session of the file list as a trace of handler calls. An analysis is two
 separate steps: `Start` when the user asks for it and `Complete` when the
 service answers, with any other steps in between, since the page stays
 usable while the request is pending.
 */
module Session {
  import opened Files
  import opened Store
  import opened Card

  datatype Action =
    | Upload(batch: seq<Incoming>)
    | Delete(id: string)
    | Rename(editing: Option<string>, newName: string)
    | Start(id: string)
    | Complete(id: string, result: AnalysisResult)

  function Step(files: seq<FileNode>, a: Action): (r: seq<FileNode>) {
    match a
    case Upload(batch) => AddFiles(files, batch)
    case Delete(id) => DeleteFile(files, id)
    case Rename(editing, newName) => ConfirmRename(files, editing, newName)
    case Start(id) => BeginAnalysis(files, id).files
    case Complete(id, result) => FinishAnalysis(files, id, result)
  }

  /** The list after the actions of `trace`, in order. */
  function Run(files: seq<FileNode>, trace: seq<Action>): (r: seq<FileNode>)
    decreases |trace|
  {
    if trace == [] then files else Run(Step(files, trace[0]), trace[1..])
  }

  predicate NoUploads(trace: seq<Action>) {
    forall k :: 0 <= k < |trace| ==> !trace[k].Upload?
  }

  lemma {:induction false} RunAppend(files: seq<FileNode>, a: seq<Action>, b: seq<Action>)
    ensures Run(files, a + b) == Run(Run(files, a), b)
    decreases |a|
  {
    if a == [] {
      assert a + b == b;
    } else {
      assert (a + b)[0] == a[0];
      assert (a + b)[1..] == a[1..] + b;
      RunAppend(Step(files, a[0]), a[1..], b);
    }
  }

  /** Only an upload brings identifiers into the list. */
  lemma StepInventsNoIds(files: seq<FileNode>, a: Action)
    requires !a.Upload?
    ensures forall x :: x in IdsOf(Step(files, a)) ==> x in IdsOf(files)
  {
  }

  lemma {:induction false} RunInventsNoIds(files: seq<FileNode>, trace: seq<Action>)
    requires NoUploads(trace)
    ensures forall x :: x in IdsOf(Run(files, trace)) ==> x in IdsOf(files)
    decreases |trace|
  {
    if trace != [] {
      StepInventsNoIds(files, trace[0]);
      assert NoUploads(trace[1..]);
      RunInventsNoIds(Step(files, trace[0]), trace[1..]);
    }
  }

  /** Only a delete of that identifier takes an identifier out of the list. */
  lemma StepKeepsId(files: seq<FileNode>, a: Action, id: string)
    requires id in IdsOf(files) && a != Delete(id)
    ensures id in IdsOf(Step(files, a))
  {
  }

  lemma {:induction false} RunKeepsId(files: seq<FileNode>, trace: seq<Action>, id: string)
    requires id in IdsOf(files)
    requires forall k :: 0 <= k < |trace| ==> trace[k] != Delete(id)
    ensures id in IdsOf(Run(files, trace))
    decreases |trace|
  {
    if trace != [] {
      StepKeepsId(files, trace[0], id);
      RunKeepsId(Step(files, trace[0]), trace[1..], id);
    }
  }

  /** No upload of the trace brings in a file with the identifier. */
  predicate NoUploadOf(trace: seq<Action>, id: string) {
    forall k, j :: 0 <= k < |trace| && trace[k].Upload? && 0 <= j < |trace[k].batch| ==> trace[k].batch[j].id != id
  }

  /** An identifier missing from the list stays missing through a step,
      unless the step uploads a file with it. */
  lemma StepKeepsAbsent(files: seq<FileNode>, a: Action, id: string)
    requires id !in IdsOf(files)
    requires a.Upload? ==> forall j :: 0 <= j < |a.batch| ==> a.batch[j].id != id
    ensures id !in IdsOf(Step(files, a))
  {
  }

  lemma {:induction false} RunKeepsAbsent(files: seq<FileNode>, trace: seq<Action>, id: string)
    requires id !in IdsOf(files) && NoUploadOf(trace, id)
    ensures id !in IdsOf(Run(files, trace))
    decreases |trace|
  {
    if trace != [] {
      assert trace[0].Upload? ==> forall j :: 0 <= j < |trace[0].batch| ==> trace[0].batch[j].id != id;
      StepKeepsAbsent(files, trace[0], id);
      assert NoUploadOf(trace[1..], id) by {
        forall k, j | 0 <= k < |trace[1..]| && trace[1..][k].Upload? && 0 <= j < |trace[1..][k].batch|
          ensures trace[1..][k].batch[j].id != id
        {
          assert trace[1..][k] == trace[k + 1];
        }
      }
      RunKeepsAbsent(Step(files, trace[0]), trace[1..], id);
    }
  }

  /** A file deleted while its analysis is pending does not come back when
      the analysis completes, whatever else happens in between, short of an
      upload after the delete that brings the identifier in again. */
  lemma NoResurrection(files: seq<FileNode>, id: string, before: seq<Action>, after: seq<Action>, result: AnalysisResult)
    requires NoUploadOf(after, id)
    ensures id !in IdsOf(Run(files, [Start(id)] + before + [Delete(id)] + after + [Complete(id, result)]))
  {
    var head := [Start(id)] + before;
    var tail := after + [Complete(id, result)];
    assert [Start(id)] + before + [Delete(id)] + after + [Complete(id, result)] == head + ([Delete(id)] + tail);
    RunAppend(files, head, [Delete(id)] + tail);
    var mid := Run(files, head);
    assert Run(mid, [Delete(id)] + tail) == Run(DeleteFile(mid, id), tail);
    assert NoUploadOf(tail, id) by {
      forall k, j | 0 <= k < |tail| && tail[k].Upload? && 0 <= j < |tail[k].batch|
        ensures tail[k].batch[j].id != id
      {
        assert tail[k] == after[k];
      }
    }
    RunKeepsAbsent(DeleteFile(mid, id), tail, id);
  }

  /** A trace that starts an analysis and completes it is the completion
      applied to the list the steps in between leave. */
  lemma StartThenComplete(files: seq<FileNode>, id: string, between: seq<Action>, result: AnalysisResult)
    ensures Run(files, [Start(id)] + between + [Complete(id, result)])
         == FinishAnalysis(Run(BeginAnalysis(files, id).files, between), id, result)
  {
    RunAppend(files, [Start(id)] + between, [Complete(id, result)]);
    RunAppend(files, [Start(id)], between);
    assert Run(files, [Start(id)]) == BeginAnalysis(files, id).files;
    var mid := Run(BeginAnalysis(files, id).files, between);
    assert Run(mid, [Complete(id, result)]) == FinishAnalysis(mid, id, result);
  }

  /** Every entry the completion leaves with the identifier carries the result. */
  lemma FinishedEntriesCarryResult(files: seq<FileNode>, id: string, result: AnalysisResult, f: FileNode)
    requires f in FinishAnalysis(files, id, result) && f.id == id
    ensures f.isAnalyzing == Some(false) && f.description == Some(result.description) && f.tags == Some(result.tags)
  {
    var r := FinishAnalysis(files, id, result);
    var i :| 0 <= i < |r| && r[i] == f;
    assert IdsOf(r)[i] == IdsOf(files)[i];
  }

  /** An analysis of a file that is not deleted while it runs ends with the
      file in the list, carrying exactly the result and no longer analyzing. */
  lemma AnalysisCompletes(files: seq<FileNode>, id: string, between: seq<Action>, result: AnalysisResult)
    requires id in IdsOf(files)
    requires forall k :: 0 <= k < |between| ==> between[k] != Delete(id)
    ensures var r := Run(files, [Start(id)] + between + [Complete(id, result)]);
      && id in IdsOf(r)
      && forall f :: f in r && f.id == id ==>
           f.isAnalyzing == Some(false) && f.description == Some(result.description) && f.tags == Some(result.tags)
  {
    StartThenComplete(files, id, between, result);
    var started := BeginAnalysis(files, id).files;
    RunKeepsId(started, between, id);
    var r := FinishAnalysis(Run(started, between), id, result);
    forall f | f in r && f.id == id
      ensures f.isAnalyzing == Some(false) && f.description == Some(result.description) && f.tags == Some(result.tags)
    {
      FinishedEntriesCarryResult(Run(started, between), id, result, f);
    }
  }

  // ------------------------------------------------------- what the cards show

  /** Right after the request, every card of the file shows the indicator
      (list) or the disabled, spinning button (grid) and offers no new analysis. */
  lemma StartedCardsAreBusy(files: seq<FileNode>, id: string, i: int)
    requires 0 <= i < |files| && files[i].id == id
    ensures |BeginAnalysis(files, id).files| == |files|
    ensures var f := BeginAnalysis(files, id).files[i];
      && ListView(f).analyzingIndicator && !ListView(f).analyzeButton
      && (GridView(f).ai.AnalyzeButton? ==> GridView(f).ai.busy)
  {
    assert IdsOf(files)[i] == id;
  }

  /** After completion the grid card shows the returned description and tags
      and neither layout offers the analyze button, unless the description is
      empty: then the card counts as unannotated and offers the analysis again. */
  lemma CompletedCardsShowResult(files: seq<FileNode>, id: string, result: AnalysisResult, f: FileNode)
    requires f in FinishAnalysis(files, id, result) && f.id == id
    ensures !ListView(f).analyzingIndicator
    ensures ListView(f).analyzeButton <==> result.description == ""
    ensures result.description != "" ==> GridView(f).ai == Annotation(result.description, Some(result.tags))
    ensures result.description == "" ==> GridView(f).ai == AnalyzeButton(false)
  {
    var r := FinishAnalysis(files, id, result);
    var i :| 0 <= i < |r| && r[i] == f;
    assert IdsOf(r)[i] == IdsOf(files)[i];
  }

  /** A freshly uploaded or dropped file offers the analysis in both layouts. */
  lemma UploadedCardsOfferAnalysis(prev: seq<FileNode>, batch: seq<Incoming>, i: int)
    requires 0 <= i < |batch|
    ensures ListView(AddFiles(prev, batch)[i]).analyzeButton
    ensures GridView(AddFiles(prev, batch)[i]).ai == AnalyzeButton(false)
  {
  }

  // ------------------------------------------------------- sample results

  /** The fixed answers of the analysis service when no key is configured
      and when the request fails. */
  const MissingKeyResult := AnalysisResult("API Key missing. Cannot generate analysis.", ["Error"])
  const FailedResult := AnalysisResult("AI Analysis failed.", ["Unknown"])

  /** A failed analysis cannot be retried from the card: both fallback
      answers carry a description, so the analyze button stays hidden. */
  lemma FallbackHidesAnalyzeButton(files: seq<FileNode>, id: string, f: FileNode)
    requires f in FinishAnalysis(files, id, MissingKeyResult) || f in FinishAnalysis(files, id, FailedResult)
    requires f.id == id
    ensures !ListView(f).analyzeButton && GridView(f).ai.Annotation?
  {
    if f in FinishAnalysis(files, id, MissingKeyResult) {
      CompletedCardsShowResult(files, id, MissingKeyResult, f);
    } else {
      CompletedCardsShowResult(files, id, FailedResult, f);
    }
  }

  /** Analysis of the second sample file with a successful answer. */
  lemma SampleAnalysis(now: int)
    ensures var r := Run(InitialFiles(now), [Start("2"), Complete("2", AnalysisResult("示例描述", ["标签1", "标签2", "标签3"]))]);
      && |r| == 4
      && r[1].description == Some("示例描述")
      && r[1].isAnalyzing == Some(false)
      && GridView(r[1]).ai == Annotation("示例描述", Some(["标签1", "标签2", "标签3"]))
  {
    var files := InitialFiles(now);
    assert IdsOf(files)[1] == "2";
    var started := BeginAnalysis(files, "2").files;
    assert started[1].id == "2";
    var r := FinishAnalysis(started, "2", AnalysisResult("示例描述", ["标签1", "标签2", "标签3"]));
    assert Run(files, [Start("2"), Complete("2", AnalysisResult("示例描述", ["标签1", "标签2", "标签3"]))]) == r;
  }

  /** Deleting the first sample file while its analysis is pending. */
  lemma SampleDeleteDuringAnalysis(now: int, result: AnalysisResult)
    ensures "1" !in IdsOf(Run(InitialFiles(now), [Start("1"), Delete("1"), Complete("1", result)]))
  {
    NoResurrection(InitialFiles(now), "1", [], [], result);
    assert [Start("1")] + [] + [Delete("1")] + [] + [Complete("1", result)]
        == [Start("1"), Delete("1"), Complete("1", result)];
  }
}

=== FILE: store.dfy ===
/**
 The file list of the application and the handlers that replace it: search,
 upload and drop, delete, rename, and the two halves of an analysis. Every
 handler is a pure function from the previous list to the next one.
 */
module Store {
  import opened Files
  import opened Text
  import opened Lists

  /** The list the page starts with, the upload dates counted back from `now`. */
  function InitialFiles(now: int): (r: seq<FileNode>)
    ensures IdsOf(r) == ["1", "2", "3", "4"]
    ensures HasDescription(r[0]) && r[0].tags.Some?
    ensures forall i :: 1 <= i < |r| ==> r[i].description == None && r[i].tags == None
    ensures forall i :: 0 <= i < |r| ==> !IsAnalyzing(r[i]) && r[i].uploadDate < now
  {
    [ FileNode("1", "项目需求说明书_v2.pdf", 2450000, "application/pdf", now - 10000000,
               Some("2025年Q1核心项目业务需求详述，包含UI规范。"), Some(["需求", "文档", "Q1"]), None),
      FileNode("2", "首页设计稿_Final.png", 5600000, "image/png", now - 5000000, None, None, None),
      FileNode("3", "demo_video_preview.mp4", 45000000, "video/mp4", now - 2000000, None, None, None),
      FileNode("4", "utils.js", 1200, "application/javascript", now - 3600000 * 24, None, None, None) ]
  }

  // ---------------------------------------------------------------- search

  /** A file matches the search box when the lower-cased query occurs in its
      lower-cased name, in its description if it has one, or in one of its
      tags if it has them. */
  predicate Matches(f: FileNode, query: string) {
    var q := Lower(query);
    || Includes(Lower(f.name), q)
    || (f.description.Some? && Includes(Lower(f.description.value), q))
    || (f.tags.Some? && exists t :: t in f.tags.value && Includes(Lower(t), q))
  }

  /** The files shown for a query: exactly the matching ones, each as often
      as in the list, in list order. */
  function Search(files: seq<FileNode>, query: string): (r: seq<FileNode>)
    ensures forall f :: f in r <==> f in files && Matches(f, query)
    ensures forall f :: multiset(r)[f] == if Matches(f, query) then multiset(files)[f] else 0
    ensures IsSubsequence(r, files)
  {
    var keep := f => Matches(f, query);
    WhereMembers(files, keep);
    WhereCounts(files, keep);
    WhereIsSubsequence(files, keep);
    Where(files, keep)
  }

  /** An empty query shows the whole list, since every name includes "". */
  lemma SearchEmptyQuery(files: seq<FileNode>)
    ensures Search(files, "") == files
  {
    forall f | f in files
      ensures Matches(f, "")
    {
      IncludesEmpty(Lower(f.name));
    }
    WhereAll(files, f => Matches(f, ""));
  }

  // ---------------------------------------------------------------- upload

  const DefaultMimeType := "application/octet-stream"

  /** The list entry made for an incoming file: no annotation yet, and an
      empty type replaced by the generic binary type. */
  function NewNode(u: Incoming): (f: FileNode)
    ensures f.mimeType == if u.mimeType == "" then "application/octet-stream" else u.mimeType
    ensures f.id == u.id && f.name == u.name && f.size == u.size && f.uploadDate == u.uploadDate
    ensures f.description == None && f.tags == None && f.isAnalyzing == None
  {
    FileNode(u.id, u.name, u.size, if u.mimeType == "" then DefaultMimeType else u.mimeType,
             u.uploadDate, None, None, None)
  }

  /** Upload and drop: the new entries, in the order given, in front of the
      previous list. */
  function AddFiles(prev: seq<FileNode>, batch: seq<Incoming>): (r: seq<FileNode>)
    ensures |r| == |batch| + |prev|
    ensures r[|batch|..] == prev
    ensures forall i :: 0 <= i < |batch| ==> r[i] == NewNode(batch[i])
  {
    seq(|batch|, i requires 0 <= i < |batch| => NewNode(batch[i])) + prev
  }

  /** Searching after an upload finds the matching new entries, then the
      matching entries of the previous list. */
  lemma SearchAfterUpload(prev: seq<FileNode>, batch: seq<Incoming>, query: string)
    ensures Search(AddFiles(prev, batch), query)
         == Search(AddFiles([], batch), query) + Search(prev, query)
  {
    var added := AddFiles([], batch);
    assert AddFiles(prev, batch) == added + prev;
    WhereAppend(added, prev, f => Matches(f, query));
  }

  // ---------------------------------------------------------------- delete

  /** Delete (after the user confirmed): every entry with the identifier goes,
      the rest stay in order. */
  function DeleteFile(files: seq<FileNode>, id: string): (r: seq<FileNode>)
    ensures id !in IdsOf(r)
    ensures forall f :: f in r <==> f in files && f.id != id
    ensures forall f :: multiset(r)[f] == if f.id == id then 0 else multiset(files)[f]
    ensures IsSubsequence(r, files)
  {
    var keep := (f: FileNode) => f.id != id;
    WhereMembers(files, keep);
    WhereCounts(files, keep);
    WhereIsSubsequence(files, keep);
    Where(files, keep)
  }

  /** Deleting an identifier that is not in the list changes nothing. */
  lemma DeleteAbsent(files: seq<FileNode>, id: string)
    requires id !in IdsOf(files)
    ensures DeleteFile(files, id) == files
  {
    forall f | f in files
      ensures f.id != id
    {
      var i :| 0 <= i < |files| && files[i] == f;
      assert IdsOf(files)[i] == f.id;
    }
    WhereAll(files, (f: FileNode) => f.id != id);
  }

  // ---------------------------------------------------------------- update by identifier

  /** The entries carrying `id` replaced by `change` applied to them. */
  function UpdateById(files: seq<FileNode>, id: string, change: FileNode -> FileNode): (r: seq<FileNode>)
    ensures |r| == |files|
    ensures forall i :: 0 <= i < |files| ==> r[i] == if files[i].id == id then change(files[i]) else files[i]
  {
    seq(|files|, i requires 0 <= i < |files| => if files[i].id == id then change(files[i]) else files[i])
  }

  /** An update that keeps each entry's identifier keeps the list's identifiers. */
  lemma UpdateKeepsIds(files: seq<FileNode>, id: string, change: FileNode -> FileNode)
    requires forall i :: 0 <= i < |files| && files[i].id == id ==> change(files[i]).id == id
    ensures IdsOf(UpdateById(files, id, change)) == IdsOf(files)
  {
    var r := UpdateById(files, id, change);
    assert forall i :: 0 <= i < |files| ==> IdsOf(r)[i] == IdsOf(files)[i];
  }

  // ---------------------------------------------------------------- rename

  /** The rename dialog confirms only with an editing identifier (a non-empty
      string, as JavaScript tests it) and a name that is not all white space. */
  predicate RenameAccepted(editing: Option<string>, newName: string) {
    editing.Some? && editing.value != "" && Trim(newName) != ""
  }

  /** Confirming the rename dialog: the entries with the editing identifier
      get the trimmed name, nothing else changes; a refused rename leaves the
      list as it is. */
  function ConfirmRename(files: seq<FileNode>, editing: Option<string>, newName: string): (r: seq<FileNode>)
    ensures IdsOf(r) == IdsOf(files)
    ensures !RenameAccepted(editing, newName) ==> r == files
    ensures RenameAccepted(editing, newName) ==>
      forall i :: 0 <= i < |files| ==>
        if files[i].id == editing.value then r[i] == files[i].(name := Trim(newName)) else r[i] == files[i]
  {
    if RenameAccepted(editing, newName) then
      var name := Trim(newName);
      var rename := (f: FileNode) => f.(name := name);
      UpdateKeepsIds(files, editing.value, rename);
      UpdateById(files, editing.value, rename)
    else
      files
  }

  /** A renamed entry's name is never empty and never starts or ends with white space. */
  lemma RenamedNamesAreTrimmed(files: seq<FileNode>, editing: Option<string>, newName: string, i: int)
    requires RenameAccepted(editing, newName)
    requires 0 <= i < |files| && files[i].id == editing.value
    ensures var n := ConfirmRename(files, editing, newName)[i].name;
      n != [] && !IsTrimmable(n[0]) && !IsTrimmable(n[|n| - 1])
  {
  }

  /** Trimming the typed name first makes no difference. */
  lemma RenameTrimInsensitive(files: seq<FileNode>, editing: Option<string>, newName: string)
    ensures ConfirmRename(files, editing, Trim(newName)) == ConfirmRename(files, editing, newName)
  {
    TrimIdempotent(newName);
  }

  /** Confirming the same rename twice is the same as confirming it once. */
  lemma RenameIdempotent(files: seq<FileNode>, editing: Option<string>, newName: string)
    ensures ConfirmRename(ConfirmRename(files, editing, newName), editing, newName)
         == ConfirmRename(files, editing, newName)
  {
  }

  // ---------------------------------------------------------------- analysis

  /** `files.find`: the position of the first entry with the identifier. */
  function FindIndex(files: seq<FileNode>, id: string): (r: Option<nat>)
    ensures r.Some? ==> r.value < |files| && files[r.value].id == id
    ensures r.Some? ==> forall j :: 0 <= j < r.value ==> files[j].id != id
    ensures r.None? <==> id !in IdsOf(files)
    decreases |files|
  {
    if files == [] then None
    else if files[0].id == id then Some(0)
    else
      match FindIndex(files[1..], id)
      case None => None
      case Some(k) => Some(k + 1)
  }

  /** The state right after an analysis was requested, and the entry whose
      name, type and size were sent to the service (none when the identifier
      was not found and nothing happened). */
  datatype Started = Started(files: seq<FileNode>, subject: Option<FileNode>)

  /** First half of an analysis: if the identifier is in the list, the
      entries carrying it are marked as analyzing and nothing else changes. */
  function BeginAnalysis(files: seq<FileNode>, id: string): (s: Started)
    ensures s.subject.None? <==> id !in IdsOf(files)
    ensures s.subject.None? ==> s.files == files
    ensures s.subject.Some? ==> s.subject.value in files && s.subject.value.id == id
    ensures s.subject.Some? ==> FindIndex(files, id).Some? && s.subject.value == files[FindIndex(files, id).value]
    ensures IdsOf(s.files) == IdsOf(files)
    ensures forall i :: 0 <= i < |files| && files[i].id != id ==> s.files[i] == files[i]
    ensures s.subject.Some? ==> forall i :: 0 <= i < |files| && files[i].id == id ==>
      IsAnalyzing(s.files[i]) && s.files[i].(isAnalyzing := files[i].isAnalyzing) == files[i]
  {
    match FindIndex(files, id)
    case None => Started(files, None)
    case Some(k) =>
      var mark := (f: FileNode) => f.(isAnalyzing := Some(true));
      UpdateKeepsIds(files, id, mark);
      Started(UpdateById(files, id, mark), Some(files[k]))
  }

  /** Second half of an analysis, applied to the list as it is when the
      service answers: the entries still carrying the identifier get the
      result, replacing any earlier annotation, and lose the analyzing mark.
      No entry is added, removed or moved. */
  function FinishAnalysis(files: seq<FileNode>, id: string, result: AnalysisResult): (r: seq<FileNode>)
    ensures IdsOf(r) == IdsOf(files)
    ensures forall i :: 0 <= i < |files| && files[i].id != id ==> r[i] == files[i]
    ensures forall i :: 0 <= i < |files| && files[i].id == id ==>
      && SameFile(r[i], files[i])
      && r[i].isAnalyzing == Some(false)
      && r[i].description == Some(result.description)
      && r[i].tags == Some(result.tags)
  {
    var annotate := (f: FileNode) =>
      f.(isAnalyzing := Some(false), description := Some(result.description), tags := Some(result.tags));
    UpdateKeepsIds(files, id, annotate);
    UpdateById(files, id, annotate)
  }
}

=== FILE: text.dfy ===
/**
 The string operations the file list relies on, in JavaScript's terms:
 `String.prototype.trim`, `toLowerCase` (restricted to ASCII letters),
 `includes` and `startsWith`.
 */
module Text {

  /** White space and line terminators as ECMAScript defines them; these are
      the code points `trim` removes from both ends of a string. */
  predicate IsTrimmable(c: char) {
    || c == '\t' || c == '\n' || c == '\U{000B}' || c == '\U{000C}' || c == '\r'
    || c == ' ' || c == '\U{00A0}' || c == '\U{1680}'
    || ('\U{2000}' <= c <= '\U{200A}')
    || c == '\U{2028}' || c == '\U{2029}' || c == '\U{202F}' || c == '\U{205F}'
    || c == '\U{3000}' || c == '\U{FEFF}'
  }

  predicate AllTrimmable(s: string) {
    forall i :: 0 <= i < |s| ==> IsTrimmable(s[i])
  }

  /** Every character of `s` from position `lo` up to (not including) `hi` is white space. */
  predicate TrimmableBetween(s: string, lo: int, hi: int)
    requires 0 <= lo <= hi <= |s|
  {
    forall i :: lo <= i < hi ==> IsTrimmable(s[i])
  }

  /** Drops the leading white space: what remains is a suffix of `s`. */
  function TrimStart(s: string): (r: string)
    ensures |r| <= |s| && r == s[|s| - |r|..]
    ensures TrimmableBetween(s, 0, |s| - |r|)
    ensures r == [] || !IsTrimmable(r[0])
    decreases |s|
  {
    if s != [] && IsTrimmable(s[0]) then
      TrimStart(s[1..])
    else
      s
  }

  /** Drops the trailing white space: what remains is a prefix of `s`. */
  function TrimEnd(s: string): (r: string)
    ensures |r| <= |s| && r == s[..|r|]
    ensures TrimmableBetween(s, |r|, |s|)
    ensures r == [] || !IsTrimmable(r[|r| - 1])
    decreases |s|
  {
    if s != [] && IsTrimmable(s[|s| - 1]) then
      TrimEnd(s[..|s| - 1])
    else
      s
  }

  /** `r` is the infix of `s` starting at `k`, and everything around it is white space. */
  predicate TrimsTo(s: string, r: string, k: int) {
    && 0 <= k && k + |r| <= |s|
    && s[k..k + |r|] == r
    && TrimmableBetween(s, 0, k)
    && TrimmableBetween(s, k + |r|, |s|)
  }

  /** `String.prototype.trim`. */
  function Trim(s: string): (r: string)
    ensures exists k :: TrimsTo(s, r, k)
    ensures r == [] || (!IsTrimmable(r[0]) && !IsTrimmable(r[|r| - 1]))
    ensures r == [] <==> AllTrimmable(s)
  {
    var t := TrimStart(s);
    var r := TrimEnd(t);
    TrimPartsInfix(s, t, r);
    TrimPartsBlank(s, t, r);
    r
  }

  /** The part `TrimEnd` keeps of what `TrimStart` kept sits in `s` with white space around it. */
  lemma TrimPartsInfix(s: string, t: string, r: string)
    requires |t| <= |s| && t == s[|s| - |t|..] && TrimmableBetween(s, 0, |s| - |t|)
    requires |r| <= |t| && r == t[..|r|] && TrimmableBetween(t, |r|, |t|)
    ensures TrimsTo(s, r, |s| - |t|)
  {
    var k := |s| - |t|;
    forall i | k + |r| <= i < |s|
      ensures IsTrimmable(s[i])
    {
      assert s[i] == t[i - k];
    }
  }

  /** Nothing is left exactly when everything was white space. */
  lemma TrimPartsBlank(s: string, t: string, r: string)
    requires |t| <= |s| && t == s[|s| - |t|..] && TrimmableBetween(s, 0, |s| - |t|)
    requires t == [] || !IsTrimmable(t[0])
    requires |r| <= |t| && r == t[..|r|] && TrimmableBetween(t, |r|, |t|)
    ensures r == [] <==> AllTrimmable(s)
  {
    if r != [] {
      assert r[0] == s[|s| - |t|];
    }
  }

  /** Trimming a trimmed string changes nothing. */
  lemma TrimIdempotent(s: string)
    ensures Trim(Trim(s)) == Trim(s)
  {
    var r := Trim(s);
    assert TrimStart(r) == r;
    assert TrimEnd(r) == r;
  }

  predicate IsUpper(c: char) {
    'A' <= c <= 'Z'
  }

  /** `toLowerCase` on one character, for the ASCII letters. */
  function LowerChar(c: char): (d: char)
    ensures !IsUpper(d)
    ensures !IsUpper(c) ==> d == c
    ensures IsUpper(c) ==> 'a' <= d <= 'z' && d as int - 'a' as int == c as int - 'A' as int
  {
    if IsUpper(c) then (c as int + 32) as char else c
  }

  /** `toLowerCase`: each character mapped on its own, the length kept. */
  function Lower(s: string): (r: string)
    ensures |r| == |s|
    ensures forall i :: 0 <= i < |s| ==> r[i] == LowerChar(s[i])
    ensures forall i :: 0 <= i < |r| ==> !IsUpper(r[i])
  {
    seq(|s|, i requires 0 <= i < |s| => LowerChar(s[i]))
  }

  /** Lower-casing a lower-cased string changes nothing. */
  lemma LowerIdempotent(s: string)
    ensures Lower(Lower(s)) == Lower(s)
  {
  }

  /** `String.prototype.startsWith`: the first characters of `s` are those of `prefix`. */
  function StartsWith(s: string, prefix: string): (b: bool)
    ensures b <==> |prefix| <= |s| && forall i :: 0 <= i < |prefix| ==> s[i] == prefix[i]
  {
    prefix <= s
  }

  /** `sub` occurs in `s` at position `k`. */
  predicate OccursAt(s: string, sub: string, k: int) {
    0 <= k && k + |sub| <= |s| && s[k..k + |sub|] == sub
  }

  /** `String.prototype.includes`: a search from the left for an occurrence of `sub`. */
  function Includes(s: string, sub: string): (b: bool)
    ensures b <==> exists k :: OccursAt(s, sub, k)
    decreases |s|
  {
    if sub <= s then
      assert OccursAt(s, sub, 0);
      true
    else if s == [] then
      assert forall k :: OccursAt(s, sub, k) ==> sub <= s;
      false
    else
      OccursShift(s, sub);
      Includes(s[1..], sub)
  }

  /** When `sub` is not a prefix of `s`, its occurrences are those in `s[1..]`. */
  lemma OccursShift(s: string, sub: string)
    requires s != [] && !(sub <= s)
    ensures (exists k :: OccursAt(s, sub, k)) <==> (exists k :: OccursAt(s[1..], sub, k))
  {
    assert OccursAt(s, sub, 0) ==> sub <= s;
    if k :| OccursAt(s, sub, k) {
      assert s[1..][k - 1..k - 1 + |sub|] == s[k..k + |sub|];
      assert OccursAt(s[1..], sub, k - 1);
    }
    if k :| OccursAt(s[1..], sub, k) {
      assert s[1..][k..k + |sub|] == s[k + 1..k + 1 + |sub|];
      assert OccursAt(s, sub, k + 1);
    }
  }

  /** Every string includes the empty string. */
  lemma IncludesEmpty(s: string)
    ensures Includes(s, "")
  {
    assert OccursAt(s, "", 0);
  }
}
